=== FILE: README.md ===
# Depth-first search with pruning for a small constraint problem

This project models a single-file program, `DFS_Example.py`. The program solves a constraint-satisfaction
problem: eight variables `A` to `H` share the domain 1 to 4 and are bound by
seventeen fixed binary constraints. It solves the problem by depth-first search with
pruning over an implicit tree.

The program lays every (variable, value) pair out once in a flat catalogue:
- the block of each variable holds that variable's values in domain order;
- blocks follow the order of the variables.

A partial assignment is therefore a path of catalogue indices, with one index per
variable so far. The arithmetic "neighbour jump" `d - i % d + i` moves from any
index to the first index of the next variable's block.

The search keeps a LIFO stack of paths, seeded with one single-node path per
value of the first variable. For each path it pops, it does one of three things:
- if the path fails the consistency check, it is discarded, which prunes its whole subtree;
- if the path is consistent and complete, it is recorded as a solution;
- otherwise it is counted and its `d` children are pushed.

A single counter, `failedBranches`, counts both the discarded and the expanded
paths. The program reports that counter, the number of solutions, and their sum as
the total number of branches.

The Dafny model is organised as follows:

- `Layout` (`layout.dfy`):
  - the configuration and the catalogue, built by `CreateSearchSpace`;
  - the block arithmetic, written recursively and proved equal to `v * d`,
    `i / d` and `i % d`;
  - decoding, and the neighbour jump `NearestNeighbor`.
- `Consistency` (`consistency.dfy`):
  - the seventeen constraints as a declarative table of (first variable,
    second variable, rule), in the order the program checks them;
  - the decoding of a path into an assignment, where a later node of the same
    variable wins, as in the program's dictionary;
  - the first-failure check `CheckRules`, with its meaning, its independence
    from the order of the checks, and its monotonicity under extension.
- `Search` (`search.dfy`):
  - the frontier, the seeds and the expansion of a path;
  - the reference semantics of a run: `SubtreeTally`, `ChildrenTally` and
    `PendingTally` give what the search records below one path and below a
    whole stack, in pop order;
  - the termination measure `Weight`, which bounds the pops a stack can still cause.
- `Correctness` (`correctness.dfy`): soundness and completeness of the reference
  semantics. For every configuration, each recorded path is a complete
  consistent assignment and no path is recorded twice. When the variable names
  are distinct and there is at least one variable, every complete consistent
  assignment is recorded exactly once, and nothing else is.
- `BruteForce` (`bruteforce.dfy`): the reference that enumerates all `d^n` complete
  assignments and filters them through the check. When the variable names are
  distinct and there is at least one variable, it is proved to agree with the
  search as a multiset.
- `DepthFirst` (`dfs.dfy`): the search loop as methods over an explicit stack,
  proved to follow the reference semantics, with the counter identity and a
  bound on the number of pops.
- `Examples` (`examples.dfy`): the program's own configuration and worked examples.

The constraint table agrees with the program's code line for line. Each rule's
violation test in `Consistency.Violates` is the comparison the program makes on the
two values, and the table keeps the program's pair order. For example, the test
on `E` and `D` rejects `E >= D - 1`.

## Model

| member | source | states |
|---|---|---|
| Layout.CreateSearchSpace | DFS_Example.py:33-36 | The catalogue has `n * d` entries. Value `c` of variable `v` sits at index `v * d + c`, and every entry is the node its index decodes to. |
| Layout.NearestNeighbor | DFS_Example.py:171-172 | The jump lands on the next multiple of the domain size: `(i / d + 1) * d`, strictly after `i` and at most `d` further. |
| Layout.NeighborOfBlock | DFS_Example.py:147-150 | From any node of variable `k`'s block, the jump lands on the first node of variable `k + 1`'s block. |
| Layout.DecodeIndex | DFS_Example.py:45-48 | Decoding the index of value `c` of variable `v` gives that variable and that value, so the layout is invertible. |
| Layout.IndexOfDecode | DFS_Example.py:45-48 | Every catalogue index is the index of the (variable, value) pair it decodes to. |
| Layout.BlockOfIsDivision | DFS_Example.py:22-26 | The block number and the offset inside the block are the quotient and remainder by the domain size. |
| Consistency.CheckRulesMeaning | DFS_Example.py:50-119 | The first-failure scan answers false exactly when some constraint of the list has both variables assigned and is broken. |
| Consistency.CheckRulesPasses | DFS_Example.py:50-119 | A list in which no constraint is broken passes the first-failure scan to its final `True`. |
| Consistency.ConsistencyMeaning | DFS_Example.py:39-119 | A path passes the check exactly when its assignment, with later nodes overriding earlier ones, breaks no constraint of the table. |
| Consistency.OrderIndependent | DFS_Example.py:50-119 | Two rule lists with the same multiset of constraints give the same verdict on every assignment. |
| Consistency.AtMostOneVariableConsistent | DFS_Example.py:51-117 | An assignment of at most one variable passes every constraint, because each constraint relates two different variables. |
| Consistency.ShortPathConsistent | DFS_Example.py:127-134 | The empty path and every one-node path pass the check. |
| Consistency.InconsistentExtension | DFS_Example.py:160-162 | With distinct variable names, once a positioned path fails the check, every extension of it by later variables fails too, so pruning its subtree loses nothing. |
| Consistency.ConsistentPrefix | DFS_Example.py:160-162 | With distinct variable names, every prefix of a consistent positioned path is consistent. |
| Consistency.ExtensionKeepsAssignment | DFS_Example.py:45-48 | With distinct variable names, extending a positioned path keeps the value of every variable already assigned. |
| Search.Seeds | DFS_Example.py:127-129 | The first frontier holds `d` single-node paths: value `i` of the first variable, in domain order. |
| Search.Expand | DFS_Example.py:147-159 | Expanding a path by the neighbour jump gives exactly `d` children. Child `c` is the path extended by value `c` of the next variable, and each child can sit on the frontier. |
| Search.ChildOnFrontier | DFS_Example.py:153-158 | A child of an incomplete frontier path is again a frontier path: it is non-empty and each node lies in its own variable's block. |
| Search.PendingConcat | DFS_Example.py:131-132 | Pushing paths on a stack means they are run, top first, before the paths below them. |
| Search.ExpandWeight | DFS_Example.py:154-159 | The children of an expanded path together weigh one less than the path did: each pop strictly shrinks the work left. |
| Search.SeedsWeight | DFS_Example.py:127-131 | The first frontier weighs as much as the full tree of `d + d^2 + ... + d^n` paths. |
| Search.TreeNodesProduct | DFS_Example.py:154-159 | A full tree of height `h + 1` is `d` subtrees of height `h` with their roots. |
| DepthFirst.DfsWithPruning | DFS_Example.py:122-168 | The run records the solutions and counter the reference semantics give. Total = solutions + failed, and the number of pops is at most the tree size. Every recorded path is a solution, and none is recorded twice. With distinct names and at least one variable, the solutions equal the brute-force set as a multiset. |
| DepthFirst.Explore | DFS_Example.py:131-162 | The loop ends, records what the starting stack's semantics say, keeps total = solutions + failed, and pops no more than the stack's weight. |
| DepthFirst.Visit | DFS_Example.py:132-162 | One pop leaves what the run records unchanged and the stack's weight strictly drops. A failing path is dropped and only the failure count grows. A consistent complete path is appended to the solutions and the count stays. Otherwise the count grows and the path's children are pushed in its place. |
| DepthFirst.InitialFrontier | DFS_Example.py:127-129 | The loop builds exactly the seed frontier. |
| DepthFirst.PushChildren | DFS_Example.py:147-159 | The stack after pushing is the old stack followed by the `d` children in push order. The popped path is copied, not changed. |
| DepthFirst.ExpandedRecord | DFS_Example.py:141-159 | Counting an expanded path and then running its children records the same as running its subtree, and the stack's weight strictly drops. |
| DepthFirst.ExpandStep | DFS_Example.py:141-159 | Replacing a consistent incomplete path by its children records the same as popping it, and adds the weight of its subtree. |
| Correctness.SubtreeSound | DFS_Example.py:134-138 | Everything recorded below a path is a complete consistent assignment that extends that path. |
| Correctness.PendingSound | DFS_Example.py:131-138 | Everything recorded from a stack is a solution. |
| Correctness.SubtreeCount | DFS_Example.py:132-162 | With distinct variable names, below a frontier path, each solution that extends the path is recorded exactly once, and no other solution is recorded. |
| Correctness.ChildrenCount | DFS_Example.py:147-159 | With distinct variable names, below the first `k` children, each solution whose next node is among the first `k` values is recorded exactly once. |
| Correctness.SearchCount | DFS_Example.py:122-166 | With distinct names and at least one variable, a run records every solution exactly once and nothing else. |
| Correctness.SearchSound | DFS_Example.py:134-138 | Every recorded path is a complete consistent assignment. |
| Correctness.SearchComplete | DFS_Example.py:122-166 | With distinct names and at least one variable, a path is recorded if and only if it is a solution. |
| Correctness.SubtreeAtMostOnce | DFS_Example.py:132-162 | For any variable names, below a frontier path any path is recorded at most once, and only a path that extends it. |
| Correctness.ChildrenAtMostOnce | DFS_Example.py:147-159 | For any variable names, below the first `k` children any path is recorded at most once, and only one whose next node is among the first `k` values. |
| Correctness.ChildAtMostOnce | DFS_Example.py:150-159 | Below one child any path is recorded at most once, and only one that continues with that child's node. |
| Correctness.SeedsAtMostOnce | DFS_Example.py:127-131 | From the first `k` seeds any path is recorded at most once, and only one whose first node is among the first `k` values. |
| Correctness.SearchAtMostOnce | DFS_Example.py:122-166 | For any variable names, a run records each path at most once. |
| Correctness.SearchNoRepeats | DFS_Example.py:122-166 | For any variable names, no path is recorded twice. |
| BruteForce.AssignmentsSize | DFS_Example.py:22-24 | There are `d^n` complete assignments. |
| BruteForce.AssignmentsCount | DFS_Example.py:22-24 | The enumeration holds each path with one node per variable block exactly once, and nothing else. |
| BruteForce.BruteForceCount | DFS_Example.py:39-119 | The brute-force reference holds each solution exactly once and nothing else. |
| BruteForce.SearchIsBruteForce | DFS_Example.py:122-168 | With distinct names and at least one variable, the search and the brute-force reference record the same paths with the same multiplicities. |
| BruteForce.PruningSound | DFS_Example.py:160-162 | With distinct variable names, no brute-force solution extends a positioned path that fails the check. |
| Examples.StandardDistinct | DFS_Example.py:186 | The eight variable names of the program's configuration are pairwise different. |
| Examples.SmallCatalogue | DFS_Example.py:2-9 | With variables `V1`, `V2` and values 1, 2, the catalogue is `V1=1, V1=2, V2=1, V2=2`. |
| Examples.EmptyConfigMissesEmptyAssignment | DFS_Example.py:122-131 | With no variables and no values, the empty assignment is a solution that brute force holds, but the search records nothing. |
| Examples.EmptyPathConsistent | DFS_Example.py:39-119 | The empty path passes the check. |
| Examples.AboveRuleRejects | DFS_Example.py:51-53 | Assigning `A = 3` and `G = 4` fails the first constraint. |
| Examples.RepeatedNameRepairs | DFS_Example.py:45-53 | With the name `A` repeated, the path `A = 1, G = 2` fails the first constraint. Its extension by `A = 4` passes, because the dictionary entry for `A` is overwritten. |
| Examples.StandardSearchIsBruteForce | DFS_Example.py:122-168 | On the program's configuration, the search finds exactly the brute-force solutions, each once. |

## Left out

- Printing is not modelled: `showBranch` and the final report lines only print.
  The model returns the solutions and the counters instead.
- Global state is replaced by explicit parameters. The module-level `key`,
  `nodes` and `domain` become a `Config` value, and the catalogue becomes the
  arithmetic decoding it stands for.
- The catalogue is decoded by position, not by parsing strings. The program
  stores each node as the string of name and value, and reads back the first
  character as the variable and the second as the value. The two agree only
  while names are one character and values are one digit, as in the program's
  configuration. With longer names, such as `V1` and `V2`, the program would
  merge variables that the model keeps apart.
- Out-of-range indexing is excluded by preconditions, because no run reaches it.
  `OnFrontier` requires `1 <= |p|`, which excludes the `IndexError` that
  `path[len(path) - 1]` raises on an empty path (DFS_Example.py:148).
  `ValidIndex` requires `0 <= node < |catalogue|`, which excludes two behaviours
  of `key[node]` (DFS_Example.py:46): an `IndexError` when `node >= len(key)` or
  `node < -len(key)`, and a silent wrap-around when `-len(key) <= node < 0`.
- DepthFirst.DfsWithPruning: the model adds a third counter, `totalBranches`, for the
  number of pops. The program only computes `len(solutions) + failedBranches` when
  reporting; the model proves the two are equal.
- DepthFirst.DfsWithPruning requires `|domain| > 0 ==> |nodes| > 0`. With values
  but no variables, the program indexes an empty catalogue and fails.
- DepthFirst.DfsWithPruning: agreement with brute force is stated only for
  distinct variable names and at least one variable; soundness and the absence
  of repeats hold for every configuration. With repeated names, a later node overwrites an earlier one in the
  assignment, and the check no longer decides each variable once.
- Correctness.SearchComplete, Correctness.SearchCount and
  BruteForce.SearchIsBruteForce carry the same restriction. Distinct names are
  needed for the reason above. At least one variable is needed because, with no
  variables and no values, the empty assignment is complete and consistent, yet
  the search starts from an empty stack and records nothing
  (`Examples.EmptyConfigMissesEmptyAssignment`).
- Consistency.InconsistentExtension, Consistency.ConsistentPrefix,
  Consistency.ExtensionKeepsAssignment, Correctness.SubtreeCount,
  Correctness.ChildrenCount and BruteForce.PruningSound require distinct variable
  names. Without them the properties are false of the program: a later node of a
  repeated variable can overwrite the value that broke a constraint
  (`Examples.RepeatedNameRepairs`).
- Layout.Decode: its own contract only says that the decoded name and value come
  from the configuration. Its exact result is stated by `Layout.DecodeIndex` and
  `Layout.IndexOfDecode`.
- DepthFirst.DfsWithPruning: the exact sequence of solutions is fixed, because
  `Tally(solutions, failedBranches) == SearchTally(cfg)` determines it. What is not
  proved is its closed form: that the solutions come out in decreasing
  lexicographic order of their nodes. Agreement with brute force is stated only up
  to order.
- Determinism is not stated separately. The functions are deterministic by
  construction, and each method's ensures fixes its outputs. For example,
  `DepthFirst.DfsWithPruning` ensures `Tally(solutions, failedBranches) == SearchTally(cfg)`,
  which fixes the run's result for a given configuration.

=== FILE: bruteforce.dfy ===
/**
  The brute-force reference: enumerate every complete assignment, `d` values
  for each of the `n` variables in catalogue form, and keep those that pass
  the consistency check. The search, whose pruning skips whole subtrees,
  is proved to record exactly the same paths, each exactly once.
 */
module BruteForce {
  import opened Layout
  import opened Consistency
  import opened Search
  import opened Correctness

  /** `d` to the power `k`. */
  function Power(d: nat, k: nat): nat {
    if k == 0 then 1 else d * Power(d, k - 1)
  }

  /** `p` followed, in turn, by each of the first `c` nodes of the block of variable `v`. */
  function Appended(p: Path, v: nat, d: nat, c: nat): seq<Path> {
    if c == 0 then [] else Appended(p, v, d, c - 1) + [p + [BlockStart(v, d) + c - 1]]
  }

  /** Every path of `ps` followed by each node of the block of variable `v`, in order. */
  function Extend(ps: seq<Path>, v: nat, d: nat): seq<Path> {
    if |ps| == 0 then [] else Appended(ps[0], v, d, d) + Extend(ps[1..], v, d)
  }

  /**
    Every way of choosing one node of each of the first `k` blocks, in
    lexicographic order.
   */
  function Assignments(k: nat, d: nat): (all: seq<Path>)
    ensures forall i :: 0 <= i < |all| ==> |all[i]| == k
  {
    if k == 0 then [[]] else ExtendLength(Assignments(k - 1, d), k - 1, d); Extend(Assignments(k - 1, d), k - 1, d)
  }

  /** Keeps the candidates that pass the consistency check, in order. */
  function Filter(cfg: Config, candidates: seq<Path>): seq<Path> {
    if |candidates| == 0 then
      []
    else
      (if ValidPath(cfg, candidates[0]) && ConsistencyCheck(cfg, candidates[0]) then [candidates[0]] else [])
      + Filter(cfg, candidates[1..])
  }

  /** All complete assignments that pass the consistency check. */
  function BruteForceSolutions(cfg: Config): seq<Path> {
    Filter(cfg, Assignments(|cfg.nodes|, |cfg.domain|))
  }

  // ---------------------------------------------------------------------
  // Lengths
  // ---------------------------------------------------------------------

  /** Appending one node to paths of length `v` gives paths of length `v + 1`. */
  lemma {:induction false} ExtendLength(ps: seq<Path>, v: nat, d: nat)
    requires forall i :: 0 <= i < |ps| ==> |ps[i]| == v
    ensures forall i :: 0 <= i < |Extend(ps, v, d)| ==> |Extend(ps, v, d)[i]| == v + 1
    ensures |Extend(ps, v, d)| == |ps| * d
  {
    if |ps| > 0 {
      var first := Appended(ps[0], v, d, d);
      AppendedShape(ps[0], v, d, d);
      ExtendLength(ps[1..], v, d);
      var rest := Extend(ps[1..], v, d);
      forall i | 0 <= i < |first + rest| ensures |(first + rest)[i]| == v + 1 {
        if i >= |first| {
          assert (first + rest)[i] == rest[i - |first|];
        }
      }
      assert |ps| * d == (|ps| - 1) * d + d;
    }
  }

  /** The `c` paths appended to `p` are `p` extended by one node each. */
  lemma {:induction false} AppendedShape(p: Path, v: nat, d: nat, c: nat)
    ensures |Appended(p, v, d, c)| == c
    ensures forall i :: 0 <= i < c ==> Appended(p, v, d, c)[i] == p + [BlockStart(v, d) + i]
  {
    if c > 0 {
      AppendedShape(p, v, d, c - 1);
    }
  }

  /** There are `d` to the power `k` ways to choose a node in each of `k` blocks. */
  lemma {:induction false} AssignmentsSize(k: nat, d: nat)
    ensures |Assignments(k, d)| == Power(d, k)
  {
    if k > 0 {
      AssignmentsSize(k - 1, d);
      ExtendLength(Assignments(k - 1, d), k - 1, d);
      assert Power(d, k - 1) * d == d * Power(d, k - 1);
    }
  }

  // ---------------------------------------------------------------------
  // Counting
  // ---------------------------------------------------------------------

  /** The paths appended to `p` contain each one-node extension of `p` in the first `c` nodes of block `v` once. */
  lemma {:induction false} AppendedCount(p: Path, v: nat, d: nat, c: nat, s: Path)
    ensures CountIn(Appended(p, v, d, c), s)
         == if |s| == |p| + 1 && Extends(s, p) && BlockStart(v, d) <= s[|p|] < BlockStart(v, d) + c then 1 else 0
  {
    if c > 0 {
      var x := BlockStart(v, d) + c - 1;
      AppendedCount(p, v, d, c - 1, s);
      CountConcat(Appended(p, v, d, c - 1), [p + [x]], s);
      CountSingle(p + [x], s);
      ExtendsByOne(s, p, x, p + [x]);
      ExtendsSameLength(s, p + [x]);
    }
  }

  /** Extending paths of length `v` counts each path of length `v + 1` as often as its prefix, when its last node lies in block `v`. */
  lemma {:induction false} ExtendCount(ps: seq<Path>, v: nat, d: nat, s: Path)
    requires forall i :: 0 <= i < |ps| ==> |ps[i]| == v
    ensures CountIn(Extend(ps, v, d), s)
         == if |s| == v + 1 && InBlock(s[v], v, d) then CountIn(ps, s[..v]) else 0
  {
    if |ps| > 0 {
      var p := ps[0];
      AppendedCount(p, v, d, d, s);
      ExtendCount(ps[1..], v, d, s);
      CountConcat(Appended(p, v, d, d), Extend(ps[1..], v, d), s);
      if |s| == v + 1 {
        assert Extends(s, p) <==> s[..v] == p;
      }
    }
  }

  /** Every way of choosing one node in each of `k` blocks is enumerated exactly once, and nothing else is. */
  lemma {:induction false} AssignmentsCount(k: nat, d: nat, s: Path)
    ensures CountIn(Assignments(k, d), s) == if |s| == k && InBlocks(s, d) then 1 else 0
  {
    if k == 0 {
      CountSingle([], s);
    } else {
      ExtendCount(Assignments(k - 1, d), k - 1, d, s);
      if |s| == k {
        var init := s[..k - 1];
        AssignmentsCount(k - 1, d, init);
        assert InBlocks(s, d) <==> InBlocks(init, d) && InBlock(s[k - 1], k - 1, d) by {
          if InBlocks(init, d) && InBlock(s[k - 1], k - 1, d) {
            forall i | 0 <= i < k ensures InBlock(s[i], i, d) {
              if i < k - 1 {
                assert init[i] == s[i];
              }
            }
          }
          if InBlocks(s, d) {
            forall i | 0 <= i < k - 1 ensures InBlock(init[i], i, d) {
              assert init[i] == s[i];
            }
          }
        }
      }
    }
  }

  /** Filtering keeps each candidate that passes the check as often as it occurs, and drops the others. */
  lemma {:induction false} FilterCount(cfg: Config, candidates: seq<Path>, s: Path)
    ensures CountIn(Filter(cfg, candidates), s)
         == if ValidPath(cfg, s) && ConsistencyCheck(cfg, s) then CountIn(candidates, s) else 0
  {
    if |candidates| > 0 {
      var c := candidates[0];
      var kept := if ValidPath(cfg, c) && ConsistencyCheck(cfg, c) then [c] else [];
      FilterCount(cfg, candidates[1..], s);
      CountConcat(kept, Filter(cfg, candidates[1..]), s);
      CountSingle(c, s);
      assert CountIn([], s) == 0;
    }
  }

  /** The brute-force reference holds every solution exactly once and nothing else. */
  lemma BruteForceCount(cfg: Config, s: Path)
    ensures CountIn(BruteForceSolutions(cfg), s) == if IsSolution(cfg, s) then 1 else 0
  {
    AssignmentsCount(|cfg.nodes|, |cfg.domain|, s);
    FilterCount(cfg, Assignments(|cfg.nodes|, |cfg.domain|), s);
  }

  /** Counting in a sequence agrees with its multiset. */
  lemma {:induction false} CountIsMultiplicity(xs: seq<Path>, s: Path)
    ensures CountIn(xs, s) == multiset(xs)[s]
  {
    if |xs| > 0 {
      CountIsMultiplicity(xs[1..], s);
      assert xs == [xs[0]] + xs[1..];
    }
  }

  /**
    The search records the same paths as the brute-force reference, with
    the same multiplicities (each once): they differ only in order.
   */
  lemma SearchIsBruteForce(cfg: Config)
    requires DistinctNames(cfg)
    requires |cfg.nodes| > 0
    ensures multiset(SearchTally(cfg).solutions) == multiset(BruteForceSolutions(cfg))
  {
    forall s ensures multiset(SearchTally(cfg).solutions)[s] == multiset(BruteForceSolutions(cfg))[s] {
      SearchCount(cfg, s);
      BruteForceCount(cfg, s);
      CountIsMultiplicity(SearchTally(cfg).solutions, s);
      CountIsMultiplicity(BruteForceSolutions(cfg), s);
    }
  }

  /**
    Pruning is safe: no brute-force solution continues a positioned path
    that fails the check, so discarding such a path with its whole subtree
    loses nothing.
   */
  lemma PruningSound(cfg: Config, p: Path, s: Path)
    requires DistinctNames(cfg)
    requires Positioned(cfg, p)
    requires s in BruteForceSolutions(cfg)
    ensures ValidPath(cfg, p)
    ensures Extends(s, p) ==> ConsistencyCheck(cfg, p)
  {
    PositionedIsValid(cfg, p);
    BruteForceCount(cfg, s);
    CountPositive(BruteForceSolutions(cfg), s);
    if Extends(s, p) {
      ConsistentPrefix(cfg, s, |p|);
      assert s[..|p|] == p;
    }
  }
}

=== FILE: consistency.dfy ===
/**
  The consistency check on partial assignments.

  A path of catalogue indices is decoded into an assignment from variable
  names to domain values. The path is consistent unless one of the fixed
  binary constraints has both of its variables assigned and its rule is
  broken. The constraints are kept as a declarative table, in the order the
  checks are made, and each rule's violation test is the one the program
  makes on the two values.
 */
module Consistency {
  import opened Layout

  /** The shapes of binary rule used by the constraint table, named by what a VALID pair satisfies. */
  datatype Rule =
    | Above         // first > second
    | AtMost        // first <= second
    | Below         // first < second
    | AtLeast       // first >= second
    | Differs       // first != second
    | Adjacent      // |first - second| == 1
    | OddGap        // |first - second| is odd
    | EvenGap       // |first - second| is even
    | WellBelow     // first < second - 1
    | NotTwoBelow   // first != second - 2
    | NotOneBelow   // first != second - 1

  function Abs(x: int): nat {
    if x < 0 then -x else x
  }

  /** The rejection test of a rule on the values `a` of the first and `b` of the second variable. */
  predicate Violates(rule: Rule, a: int, b: int) {
    match rule
    case Above => b >= a
    case AtMost => a > b
    case Below => a >= b
    case AtLeast => a < b
    case Differs => a == b
    case Adjacent => Abs(a - b) != 1
    case OddGap => Abs(a - b) % 2 == 0
    case EvenGap => Abs(a - b) % 2 == 1
    case WellBelow => a >= b - 1
    case NotTwoBelow => a == b - 2
    case NotOneBelow => a == b - 1
  }

  /** A constraint between two named variables. */
  datatype Constraint = Constraint(first: Var, second: Var, rule: Rule)

  /** The seventeen constraints, in the order in which they are checked. */
  const Table: seq<Constraint> := [
    Constraint("A", "G", Above),
    Constraint("G", "C", Adjacent),
    Constraint("D", "C", Differs),
    Constraint("G", "F", Differs),
    Constraint("E", "F", OddGap),
    Constraint("A", "H", AtMost),
    Constraint("H", "C", EvenGap),
    Constraint("E", "C", Differs),
    Constraint("H", "F", Differs),
    Constraint("F", "B", Adjacent),
    Constraint("H", "D", Differs),
    Constraint("E", "D", WellBelow),
    Constraint("C", "F", Differs),
    Constraint("G", "H", Below),
    Constraint("D", "G", AtLeast),
    Constraint("E", "H", NotTwoBelow),
    Constraint("D", "F", NotOneBelow)
  ]

  /** A partial assignment of values to variables. */
  type Assignment = map<Var, int>

  /** Constraint `c` applies to `m` (both variables assigned) and its rule is broken. */
  predicate Broken(c: Constraint, m: Assignment) {
    c.first in m && c.second in m && Violates(c.rule, m[c.first], m[c.second])
  }

  /** Every index of `path` names a node of the catalogue. */
  predicate ValidPath(cfg: Config, path: seq<int>) {
    forall k :: 0 <= k < |path| ==> ValidIndex(cfg, path[k])
  }

  /**
    The assignment a path stands for: each node sets its variable to its
    value, in path order, so a later node of the same variable wins.
   */
  function AssignmentOf(cfg: Config, path: seq<int>): (m: Assignment)
    requires ValidPath(cfg, path)
    decreases |path|
  {
    if |path| == 0 then
      map[]
    else
      var node := Decode(cfg, path[|path| - 1]);
      AssignmentOf(cfg, path[..|path| - 1])[node.variable := node.value]
  }

  /**
    Runs the checks in table order and answers false at the first constraint
    that applies and is broken, true when none is.
   */
  function CheckRules(rules: seq<Constraint>, m: Assignment): (ok: bool)
  {
    if |rules| == 0 then
      true
    else if Broken(rules[0], m) then
      false
    else
      CheckRules(rules[1..], m)
  }

  /** The first-failure scan answers false exactly when some constraint of the list is broken. */
  lemma {:induction false} CheckRulesMeaning(rules: seq<Constraint>, m: Assignment)
    ensures CheckRules(rules, m) <==> forall c :: c in rules ==> !Broken(c, m)
  {
    if |rules| > 0 {
      CheckRulesMeaning(rules[1..], m);
      assert forall c :: c in rules <==> c == rules[0] || c in rules[1..];
    }
  }

  /** A list whose constraints are, position by position, not broken passes the scan. */
  lemma {:induction false} CheckRulesPasses(rules: seq<Constraint>, m: Assignment)
    requires forall i :: 0 <= i < |rules| ==> !Broken(rules[i], m)
    ensures CheckRules(rules, m)
  {
    if |rules| > 0 {
      assert forall i :: 0 <= i < |rules| - 1 ==> rules[1..][i] == rules[i + 1];
      CheckRulesPasses(rules[1..], m);
    }
  }

  /**
    The consistency check of a path against the constraint table. Its
    meaning is stated once, in `ConsistencyMeaning`, so that proofs about
    the search do not unfold the table.
   */
  function ConsistencyCheck(cfg: Config, path: seq<int>): (ok: bool)
    requires ValidPath(cfg, path)
  {
    CheckRules(Table, AssignmentOf(cfg, path))
  }

  /** A path passes the check exactly when no constraint of the table is broken by its assignment. */
  lemma ConsistencyMeaning(cfg: Config, path: seq<int>)
    requires ValidPath(cfg, path)
    ensures ConsistencyCheck(cfg, path) <==> forall c :: c in Table ==> !Broken(c, AssignmentOf(cfg, path))
  {
    CheckRulesMeaning(Table, AssignmentOf(cfg, path));
  }

  // ---------------------------------------------------------------------
  // Properties of the check
  // ---------------------------------------------------------------------

  /** The verdict does not depend on the order in which the constraints are checked. */
  lemma OrderIndependent(rules: seq<Constraint>, reordered: seq<Constraint>, m: Assignment)
    requires multiset(rules) == multiset(reordered)
    ensures CheckRules(rules, m) == CheckRules(reordered, m)
  {
    CheckRulesMeaning(rules, m);
    CheckRulesMeaning(reordered, m);
    forall c | c in rules ensures c in reordered {
      assert c in multiset(rules);
    }
    forall c | c in reordered ensures c in rules {
      assert c in multiset(reordered);
    }
  }

  /** Every constraint of the table relates two different variables. */
  lemma TableRelatesTwoVariables()
    ensures forall c :: c in Table ==> c.first != c.second
  {
  }

  /** A broken constraint needs two assigned variables. */
  lemma BrokenNeedsTwo(c: Constraint, m: Assignment)
    requires c.first != c.second
    requires Broken(c, m)
    ensures |m.Keys| >= 2
  {
    var pair := {c.first, c.second};
    assert pair <= m.Keys;
    assert |pair| == 2;
    SubsetCardinality(pair, m.Keys);
  }

  lemma SubsetCardinality<T>(a: set<T>, b: set<T>)
    requires a <= b
    ensures |a| <= |b|
  {
    assert b == a + (b - a);
  }

  /** An assignment with at most one variable passes every constraint of the table. */
  lemma AtMostOneVariableConsistent(cfg: Config, path: seq<int>)
    requires ValidPath(cfg, path)
    requires |AssignmentOf(cfg, path).Keys| <= 1
    ensures ConsistencyCheck(cfg, path)
  {
    var m := AssignmentOf(cfg, path);
    TableRelatesTwoVariables();
    ConsistencyMeaning(cfg, path);
    forall c | c in Table ensures !Broken(c, m) {
      if Broken(c, m) {
        BrokenNeedsTwo(c, m);
      }
    }
  }

  /** The empty path and every one-node path are consistent. */
  lemma ShortPathConsistent(cfg: Config, path: seq<int>)
    requires ValidPath(cfg, path)
    requires |path| <= 1
    ensures ConsistencyCheck(cfg, path)
  {
    var m := AssignmentOf(cfg, path);
    if |path| == 1 {
      var node := Decode(cfg, path[0]);
      AssignmentStep(cfg, path);
      assert path[..0] == [];
      assert AssignmentOf(cfg, path[..0]) == map[];
      assert m == map[node.variable := node.value];
    } else {
      assert m.Keys == {};
    }
    AtMostOneVariableConsistent(cfg, path);
  }

  /** A path laid out in blocks, no longer than the list of variables. */
  predicate Positioned(cfg: Config, path: seq<int>) {
    |path| <= |cfg.nodes| && InBlocks(path, |cfg.domain|)
  }

  /** A positioned path only uses catalogue indices. */
  lemma PositionedIsValid(cfg: Config, path: seq<int>)
    requires Positioned(cfg, path)
    ensures ValidPath(cfg, path)
  {
    forall k | 0 <= k < |path| ensures ValidIndex(cfg, path[k]) {
      BlockInRange(path[k], k, |cfg.nodes|, |cfg.domain|);
    }
  }

  /** The node at position `k` of a positioned path decodes to variable `k`. */
  lemma PositionedDecode(cfg: Config, path: seq<int>, k: nat)
    requires Positioned(cfg, path)
    requires k < |path|
    ensures ValidIndex(cfg, path[k])
    ensures Decode(cfg, path[k]).variable == cfg.nodes[k]
    ensures Decode(cfg, path[k]).value == cfg.domain[path[k] - BlockStart(k, |cfg.domain|)]
  {
    BlockInRange(path[k], k, |cfg.nodes|, |cfg.domain|);
    DecodeBlock(path[k], k, |cfg.domain|);
  }

  /** A node that no later node overrides decides the value of its variable. */
  lemma {:induction false} AssignmentLookup(cfg: Config, path: seq<int>, k: nat)
    requires ValidPath(cfg, path)
    requires k < |path|
    requires forall j :: k < j < |path| ==> Decode(cfg, path[j]).variable != Decode(cfg, path[k]).variable
    ensures Decode(cfg, path[k]).variable in AssignmentOf(cfg, path)
    ensures AssignmentOf(cfg, path)[Decode(cfg, path[k]).variable] == Decode(cfg, path[k]).value
    decreases |path|
  {
    AssignmentStep(cfg, path);
    if k < |path| - 1 {
      var init := path[..|path| - 1];
      assert init[k] == path[k];
      forall j | k < j < |init| ensures Decode(cfg, init[j]).variable != Decode(cfg, init[k]).variable {
        assert init[j] == path[j];
      }
      AssignmentLookup(cfg, init, k);
    }
  }

  /** Every assigned variable was set by some node of the path. */
  lemma {:induction false} AssignedBy(cfg: Config, path: seq<int>, x: Var) returns (k: nat)
    requires ValidPath(cfg, path)
    requires x in AssignmentOf(cfg, path)
    ensures k < |path| && Decode(cfg, path[k]).variable == x
    decreases |path|
  {
    AssignmentStep(cfg, path);
    var last := |path| - 1;
    if Decode(cfg, path[last]).variable == x {
      k := last;
    } else {
      var init := path[..last];
      k := AssignedBy(cfg, init, x);
      assert init[k] == path[k];
    }
  }

  /** The last node of a path sets its variable on top of the assignment of the rest. */
  lemma AssignmentStep(cfg: Config, path: seq<int>)
    requires ValidPath(cfg, path)
    requires |path| > 0
    ensures ValidPath(cfg, path[..|path| - 1])
    ensures AssignmentOf(cfg, path)
         == AssignmentOf(cfg, path[..|path| - 1])[Decode(cfg, path[|path| - 1]).variable := Decode(cfg, path[|path| - 1]).value]
  {
  }

  /** Every prefix of a positioned path is positioned. */
  lemma PositionedPrefix(cfg: Config, path: seq<int>, j: nat)
    requires Positioned(cfg, path)
    requires j <= |path|
    ensures Positioned(cfg, path[..j])
  {
    forall k | 0 <= k < j ensures InBlock(path[..j][k], k, |cfg.domain|) {
      assert path[..j][k] == path[k];
    }
  }

  /**
    Extending a positioned path by nodes of later variables only adds
    variables to its assignment: the assigned ones keep their values.
   */
  lemma ExtensionKeepsAssignment(cfg: Config, p: seq<int>, q: seq<int>, x: Var)
    requires DistinctNames(cfg)
    requires Positioned(cfg, p + q)
    ensures ValidPath(cfg, p) && ValidPath(cfg, p + q)
    ensures x in AssignmentOf(cfg, p) ==>
              x in AssignmentOf(cfg, p + q) && AssignmentOf(cfg, p + q)[x] == AssignmentOf(cfg, p)[x]
  {
    var s := p + q;
    assert s[..|p|] == p;
    PositionedPrefix(cfg, s, |p|);
    PositionedIsValid(cfg, p);
    PositionedIsValid(cfg, s);
    if x in AssignmentOf(cfg, p) {
      var k := AssignedBy(cfg, p, x);
      assert s[k] == p[k];
      PositionedDecode(cfg, p, k);
      forall j | k < j < |p| ensures Decode(cfg, p[j]).variable != Decode(cfg, p[k]).variable {
        PositionedDecode(cfg, p, j);
      }
      AssignmentLookup(cfg, p, k);
      forall j | k < j < |s| ensures Decode(cfg, s[j]).variable != Decode(cfg, s[k]).variable {
        PositionedDecode(cfg, s, j);
      }
      AssignmentLookup(cfg, s, k);
    }
  }

  /**
    Monotonicity: once a path is inconsistent, every extension of it by
    nodes of later variables is inconsistent too. This is what makes it
    safe to discard a failing path together with everything below it.
   */
  lemma InconsistentExtension(cfg: Config, p: seq<int>, q: seq<int>)
    requires DistinctNames(cfg)
    requires Positioned(cfg, p + q)
    ensures ValidPath(cfg, p) && ValidPath(cfg, p + q)
    ensures !ConsistencyCheck(cfg, p) ==> !ConsistencyCheck(cfg, p + q)
  {
    assert (p + q)[..|p|] == p;
    PositionedPrefix(cfg, p + q, |p|);
    PositionedIsValid(cfg, p);
    PositionedIsValid(cfg, p + q);
    ConsistencyMeaning(cfg, p);
    ConsistencyMeaning(cfg, p + q);
    if !ConsistencyCheck(cfg, p) {
      var c :| c in Table && Broken(c, AssignmentOf(cfg, p));
      ExtensionKeepsAssignment(cfg, p, q, c.first);
      ExtensionKeepsAssignment(cfg, p, q, c.second);
      assert Broken(c, AssignmentOf(cfg, p + q));
    }
  }

  /** Every prefix of a consistent positioned path is consistent. */
  lemma ConsistentPrefix(cfg: Config, s: seq<int>, j: nat)
    requires DistinctNames(cfg)
    requires Positioned(cfg, s)
    requires j <= |s|
    requires ValidPath(cfg, s) && ConsistencyCheck(cfg, s)
    ensures ValidPath(cfg, s[..j]) && ConsistencyCheck(cfg, s[..j])
  {
    assert s == s[..j] + s[j..];
    InconsistentExtension(cfg, s[..j], s[j..]);
  }
}

=== FILE: correctness.dfy ===
/**
  What the search finds.

  Soundness: everything the search records is a complete assignment that
  passes the consistency check. Completeness and uniqueness: when the
  variables have distinct names, every such assignment is recorded, and
  exactly once. Both are proved about the reference semantics of the
  search (`SubtreeTally` and friends), which the search loop is proved to
  follow.
 */
module Correctness {
  import opened Layout
  import opened Consistency
  import opened Search

  /** `s` starts with `p`. */
  predicate Extends(s: Path, p: Path) {
    |p| <= |s| && forall i :: 0 <= i < |p| ==> s[i] == p[i]
  }

  /** `s` is a solution found below `p` if the search reaches it. */
  predicate SolutionBelow(cfg: Config, p: Path, s: Path) {
    IsSolution(cfg, s) && Extends(s, p)
  }

  /** How often `s` occurs in `xs`. */
  function CountIn(xs: seq<Path>, s: Path): nat {
    if |xs| == 0 then 0 else (if xs[0] == s then 1 else 0) + CountIn(xs[1..], s)
  }

  /** How often `s` occurs among the recorded solutions of `t`. */
  function Occurrences(t: Tally, s: Path): nat {
    CountIn(t.solutions, s)
  }

  // ---------------------------------------------------------------------
  // Soundness
  // ---------------------------------------------------------------------

  /** Everything recorded below a path is a solution that starts with the path. */
  lemma {:induction false} SubtreeSound(cfg: Config, p: Path, s: Path)
    requires OnFrontier(cfg, p)
    ensures s in SubtreeTally(cfg, p).solutions ==> SolutionBelow(cfg, p, s)
    decreases |cfg.nodes| - |p|, |cfg.domain| + 1
  {
    PositionedIsValid(cfg, p);
    if ConsistencyCheck(cfg, p) && |p| < |cfg.nodes| {
      ChildrenSound(cfg, p, |cfg.domain|, s);
    }
  }

  /** Everything recorded below the first `k` children of a path is a solution that starts with the path. */
  lemma {:induction false} ChildrenSound(cfg: Config, p: Path, k: nat, s: Path)
    requires OnFrontier(cfg, p) && |p| < |cfg.nodes|
    requires k <= |cfg.domain|
    ensures s in ChildrenTally(cfg, p, k).solutions ==> SolutionBelow(cfg, p, s)
    decreases |cfg.nodes| - |p|, k
  {
    if k > 0 {
      var child := Child(cfg, p, k - 1);
      SubtreeSound(cfg, child, s);
      ChildrenSound(cfg, p, k - 1, s);
      if s in SubtreeTally(cfg, child).solutions {
        assert s[..|p|] == s[..|child|][..|p|];
      }
    }
  }

  /** Everything recorded from a stack is a solution. */
  lemma {:induction false} PendingSound(cfg: Config, stack: seq<Path>, s: Path)
    requires Frontier(cfg, stack)
    ensures s in PendingTally(cfg, stack).solutions ==> IsSolution(cfg, s)
    decreases |stack|
  {
    if |stack| > 0 {
      PendingStep(cfg, stack);
      SubtreeSound(cfg, stack[|stack| - 1], s);
      PendingSound(cfg, stack[..|stack| - 1], s);
    }
  }

  // ---------------------------------------------------------------------
  // Completeness, each solution exactly once
  // ---------------------------------------------------------------------

  /** Below a path the search records each solution that starts with it exactly once. */
  lemma {:induction false} SubtreeCount(cfg: Config, p: Path, s: Path)
    requires DistinctNames(cfg)
    requires OnFrontier(cfg, p)
    requires IsSolution(cfg, s)
    ensures Occurrences(SubtreeTally(cfg, p), s) == if Extends(s, p) then 1 else 0
    decreases |cfg.nodes| - |p|, |cfg.domain| + 1
  {
    PositionedIsValid(cfg, p);
    if Extends(s, p) {
      ConsistentPrefix(cfg, s, |p|);
      assert s[..|p|] == p;
    }
    if ConsistencyCheck(cfg, p) {
      if |p| == |cfg.nodes| {
        assert SubtreeTally(cfg, p) == Tally([p], 0);
        CountSingle(p, s);
        if Extends(s, p) {
          assert s == p;
        }
      } else {
        ChildrenCount(cfg, p, |cfg.domain|, s);
        ThenCount(Tally([], 1), ChildrenTally(cfg, p, |cfg.domain|), s);
        if Extends(s, p) {
          assert InBlock(s[|p|], |p|, |cfg.domain|);
        }
      }
    }
  }

  /**
    Below the first `k` children of a path the search records each solution
    that starts with the path and continues with one of those children's
    nodes exactly once.
   */
  lemma {:induction false} ChildrenCount(cfg: Config, p: Path, k: nat, s: Path)
    requires DistinctNames(cfg)
    requires OnFrontier(cfg, p) && |p| < |cfg.nodes|
    requires k <= |cfg.domain|
    requires IsSolution(cfg, s)
    ensures Occurrences(ChildrenTally(cfg, p, k), s)
         == if Extends(s, p) && s[|p|] < BlockStart(|p|, |cfg.domain|) + k then 1 else 0
    decreases |cfg.nodes| - |p|, k
  {
    if k > 0 {
      ChildCount(cfg, p, k - 1, s);
      ChildrenCount(cfg, p, k - 1, s);
      ChildrenCountStep(cfg, p, k, s);
    } else {
      NoChildrenCount(cfg, p, s);
    }
  }

  /** Below none of the children of a path nothing is recorded. */
  lemma NoChildrenCount(cfg: Config, p: Path, s: Path)
    requires OnFrontier(cfg, p) && |p| < |cfg.nodes|
    requires IsSolution(cfg, s)
    ensures Occurrences(ChildrenTally(cfg, p, 0), s) == 0
    ensures !(Extends(s, p) && s[|p|] < BlockStart(|p|, |cfg.domain|))
  {
    if Extends(s, p) {
      assert InBlock(s[|p|], |p|, |cfg.domain|);
    }
  }

  /** The counting step of `ChildrenCount`: one more child adds the solutions continuing with its node. */
  lemma ChildrenCountStep(cfg: Config, p: Path, k: nat, s: Path)
    requires OnFrontier(cfg, p) && |p| < |cfg.nodes|
    requires 0 < k <= |cfg.domain|
    requires IsSolution(cfg, s)
    requires Occurrences(SubtreeTally(cfg, Child(cfg, p, k - 1)), s)
          == if Extends(s, p) && s[|p|] == BlockStart(|p|, |cfg.domain|) + (k - 1) then 1 else 0
    requires Occurrences(ChildrenTally(cfg, p, k - 1), s)
          == if Extends(s, p) && s[|p|] < BlockStart(|p|, |cfg.domain|) + (k - 1) then 1 else 0
    ensures Occurrences(ChildrenTally(cfg, p, k), s)
         == if Extends(s, p) && s[|p|] < BlockStart(|p|, |cfg.domain|) + k then 1 else 0
  {
    ThenCount(SubtreeTally(cfg, Child(cfg, p, k - 1)), ChildrenTally(cfg, p, k - 1), s);
  }

  /** Below child `c` of a path the search records each solution that continues the path with node `c` exactly once. */
  lemma {:induction false} ChildCount(cfg: Config, p: Path, c: nat, s: Path)
    requires DistinctNames(cfg)
    requires OnFrontier(cfg, p) && |p| < |cfg.nodes|
    requires c < |cfg.domain|
    requires IsSolution(cfg, s)
    ensures Occurrences(SubtreeTally(cfg, Child(cfg, p, c)), s)
         == if Extends(s, p) && s[|p|] == BlockStart(|p|, |cfg.domain|) + c then 1 else 0
    decreases |cfg.nodes| - |p|, 0
  {
    var child := Child(cfg, p, c);
    ChildOnFrontier(cfg, p, c);
    ExtendsByOne(s, p, BlockStart(|p|, |cfg.domain|) + c, child);
    assert |p| < |s|;
    SubtreeCount(cfg, child, s);
  }

  /** Starting with `p + [x]` is starting with `p` and continuing with `x`. */
  lemma ExtendsByOne(s: Path, p: Path, x: int, child: Path)
    requires child == p + [x]
    ensures Extends(s, child) <==> Extends(s, p) && |p| < |s| && s[|p|] == x
  {
    if Extends(s, p) && |p| < |s| && s[|p|] == x {
      assert s[..|p| + 1] == s[..|p|] + [s[|p|]];
    }
    if Extends(s, p + [x]) {
      assert s[..|p|] == s[..|p| + 1][..|p|];
      assert s[|p|] == s[..|p| + 1][|p|];
    }
  }

  /** A path that starts with a path of its own length is that path. */
  lemma ExtendsSameLength(s: Path, t: Path)
    ensures Extends(s, t) && |s| == |t| <==> s == t
  {
  }

  /** Occurrences add up over a run followed by another. */
  lemma ThenCount(a: Tally, b: Tally, s: Path)
    ensures Occurrences(Then(a, b), s) == Occurrences(a, s) + Occurrences(b, s)
  {
    CountConcat(a.solutions, b.solutions, s);
  }

  /** Counting is additive over concatenation. */
  lemma {:induction false} CountConcat(xs: seq<Path>, ys: seq<Path>, s: Path)
    ensures CountIn(xs + ys, s) == CountIn(xs, s) + CountIn(ys, s)
  {
    if |xs| > 0 {
      assert (xs + ys)[1..] == xs[1..] + ys;
      CountConcat(xs[1..], ys, s);
    } else {
      assert xs + ys == ys;
    }
  }

  /** Below the seed of value `c` the search records each solution whose first node is `c` exactly once. */
  lemma SeedCount(cfg: Config, c: nat, s: Path)
    requires DistinctNames(cfg)
    requires c < |cfg.domain|
    requires IsSolution(cfg, s) && |s| > 0
    ensures OnFrontier(cfg, [c])
    ensures Occurrences(SubtreeTally(cfg, [c]), s) == if s[0] == c then 1 else 0
  {
    assert InBlock(s[0], 0, |cfg.domain|);
    SubtreeCount(cfg, [c], s);
    ExtendsByOne(s, [], c, [c]);
  }

  /** The counting step of `SeedsCount`: one more seed adds the solutions starting with its node. */
  lemma SeedsStep(cfg: Config, k: nat, s: Path)
    requires 0 < k <= |cfg.domain| && |cfg.nodes| > 0
    requires |s| > 0
    requires Frontier(cfg, Seeds(cfg)[..k - 1])
    requires OnFrontier(cfg, [k - 1])
    requires Occurrences(SubtreeTally(cfg, [k - 1]), s) == if s[0] == k - 1 then 1 else 0
    requires Occurrences(PendingTally(cfg, Seeds(cfg)[..k - 1]), s) == if s[0] < k - 1 then 1 else 0
    ensures Frontier(cfg, Seeds(cfg)[..k])
    ensures Occurrences(PendingTally(cfg, Seeds(cfg)[..k]), s) == if s[0] < k then 1 else 0
  {
    var seeds := Seeds(cfg);
    FrontierSlice(cfg, seeds, 0, k);
    var stack := seeds[..k];
    assert stack[..k - 1] == seeds[..k - 1];
    assert stack[k - 1] == [k - 1];
    PendingStep(cfg, stack);
    ThenCount(SubtreeTally(cfg, [k - 1]), PendingTally(cfg, seeds[..k - 1]), s);
  }

  /** From the first `k` seeds the search records each solution whose first node is below `k` exactly once. */
  lemma {:induction false} SeedsCount(cfg: Config, k: nat, s: Path)
    requires DistinctNames(cfg)
    requires |cfg.nodes| > 0
    requires k <= |cfg.domain|
    requires IsSolution(cfg, s)
    ensures Frontier(cfg, Seeds(cfg)[..k])
    ensures Occurrences(PendingTally(cfg, Seeds(cfg)[..k]), s) == if s[0] < k then 1 else 0
  {
    if k > 0 {
      SeedsCount(cfg, k - 1, s);
      SeedCount(cfg, k - 1, s);
      SeedsStep(cfg, k, s);
    } else {
      FrontierSlice(cfg, Seeds(cfg), 0, 0);
      assert InBlock(s[0], 0, |cfg.domain|);
    }
  }

  /** A one-element sequence counts its element once. */
  lemma CountSingle(x: Path, s: Path)
    ensures CountIn([x], s) == if x == s then 1 else 0
  {
    assert [x][1..] == [];
  }

  /** `s` occurs in `xs` exactly when it is counted there. */
  lemma {:induction false} CountPositive(xs: seq<Path>, s: Path)
    ensures CountIn(xs, s) > 0 <==> s in xs
  {
    if |xs| > 0 {
      CountPositive(xs[1..], s);
      assert xs == [xs[0]] + xs[1..];
    }
  }

  /** A value that sits at two positions of a sequence is counted at least twice. */
  lemma {:induction false} CountRepeated(xs: seq<Path>, i: nat, j: nat)
    requires i < j < |xs| && xs[i] == xs[j]
    ensures CountIn(xs, xs[i]) >= 2
  {
    if i == 0 {
      assert xs[1..][j - 1] == xs[j];
      CountPositive(xs[1..], xs[i]);
    } else {
      assert xs[1..][i - 1] == xs[i] && xs[1..][j - 1] == xs[j];
      CountRepeated(xs[1..], i - 1, j - 1);
    }
  }

  /**
    The whole search records every solution exactly once and nothing else,
    when the variables have distinct names and there is at least one.
   */
  lemma SearchCount(cfg: Config, s: Path)
    requires DistinctNames(cfg)
    requires |cfg.nodes| > 0
    ensures Occurrences(SearchTally(cfg), s) == if IsSolution(cfg, s) then 1 else 0
  {
    var seeds := Seeds(cfg);
    if IsSolution(cfg, s) {
      SeedsCount(cfg, |cfg.domain|, s);
      assert seeds[..|cfg.domain|] == seeds;
      assert InBlock(s[0], 0, |cfg.domain|);
    } else {
      PendingSound(cfg, seeds, s);
      CountPositive(SearchTally(cfg).solutions, s);
    }
  }

  /** Soundness of the whole search: every recorded path is a solution. */
  lemma SearchSound(cfg: Config, s: Path)
    requires |cfg.domain| > 0 ==> |cfg.nodes| > 0
    requires s in SearchTally(cfg).solutions
    ensures IsSolution(cfg, s)
  {
    PendingSound(cfg, Seeds(cfg), s);
  }

  /** The search records a path exactly when it is a solution. */
  lemma SearchComplete(cfg: Config, s: Path)
    requires DistinctNames(cfg)
    requires |cfg.nodes| > 0
    ensures s in SearchTally(cfg).solutions <==> IsSolution(cfg, s)
  {
    SearchCount(cfg, s);
    CountPositive(SearchTally(cfg).solutions, s);
  }

  // ---------------------------------------------------------------------
  // No repeats, for every configuration
  // ---------------------------------------------------------------------

  /**
    Below a path the search records any path at most once, and only one
    that starts with it: every path is pushed at most once, whatever the
    variable names.
   */
  lemma {:induction false} SubtreeAtMostOnce(cfg: Config, p: Path, s: Path)
    requires OnFrontier(cfg, p)
    ensures Occurrences(SubtreeTally(cfg, p), s) <= if Extends(s, p) then 1 else 0
    decreases |cfg.nodes| - |p|, |cfg.domain| + 1
  {
    PositionedIsValid(cfg, p);
    if ConsistencyCheck(cfg, p) {
      if |p| == |cfg.nodes| {
        assert SubtreeTally(cfg, p) == Tally([p], 0);
        CountSingle(p, s);
        ExtendsSameLength(s, p);
      } else {
        ChildrenAtMostOnce(cfg, p, |cfg.domain|, s);
        ThenCount(Tally([], 1), ChildrenTally(cfg, p, |cfg.domain|), s);
      }
    }
  }

  /** Below the first `k` children of a path any path is recorded at most once, and only one continuing with their nodes. */
  lemma {:induction false} ChildrenAtMostOnce(cfg: Config, p: Path, k: nat, s: Path)
    requires OnFrontier(cfg, p) && |p| < |cfg.nodes|
    requires k <= |cfg.domain|
    ensures Occurrences(ChildrenTally(cfg, p, k), s)
         <= if Extends(s, p) && |p| < |s| && s[|p|] < BlockStart(|p|, |cfg.domain|) + k then 1 else 0
    decreases |cfg.nodes| - |p|, k
  {
    if k > 0 {
      ChildAtMostOnce(cfg, p, k - 1, s);
      ChildrenAtMostOnce(cfg, p, k - 1, s);
      ThenCount(SubtreeTally(cfg, Child(cfg, p, k - 1)), ChildrenTally(cfg, p, k - 1), s);
    }
  }

  /** Below child `c` of a path any path is recorded at most once, and only one continuing with node `c`. */
  lemma {:induction false} ChildAtMostOnce(cfg: Config, p: Path, c: nat, s: Path)
    requires OnFrontier(cfg, p) && |p| < |cfg.nodes|
    requires c < |cfg.domain|
    ensures Occurrences(SubtreeTally(cfg, Child(cfg, p, c)), s)
         <= if Extends(s, p) && |p| < |s| && s[|p|] == BlockStart(|p|, |cfg.domain|) + c then 1 else 0
    decreases |cfg.nodes| - |p|, 0
  {
    var child := Child(cfg, p, c);
    ChildOnFrontier(cfg, p, c);
    ExtendsByOne(s, p, BlockStart(|p|, |cfg.domain|) + c, child);
    SubtreeAtMostOnce(cfg, child, s);
  }

  /** From the first `k` seeds any path is recorded at most once, and only one whose first node is below `k`. */
  lemma {:induction false} SeedsAtMostOnce(cfg: Config, k: nat, s: Path)
    requires |cfg.domain| > 0 ==> |cfg.nodes| > 0
    requires k <= |cfg.domain|
    ensures Frontier(cfg, Seeds(cfg)[..k])
    ensures Occurrences(PendingTally(cfg, Seeds(cfg)[..k]), s) <= if 0 < |s| && s[0] < k then 1 else 0
  {
    var seeds := Seeds(cfg);
    FrontierSlice(cfg, seeds, 0, k);
    if k > 0 {
      SeedsAtMostOnce(cfg, k - 1, s);
      var stack := seeds[..k];
      assert stack[..k - 1] == seeds[..k - 1];
      assert stack[k - 1] == [k - 1];
      PendingStep(cfg, stack);
      SubtreeAtMostOnce(cfg, [k - 1], s);
      ExtendsByOne(s, [], k - 1, [k - 1]);
      ThenCount(SubtreeTally(cfg, [k - 1]), PendingTally(cfg, seeds[..k - 1]), s);
    }
  }

  /** The whole search records any path at most once, whatever the variable names. */
  lemma SearchAtMostOnce(cfg: Config, s: Path)
    requires |cfg.domain| > 0 ==> |cfg.nodes| > 0
    ensures Occurrences(SearchTally(cfg), s) <= 1
  {
    SeedsAtMostOnce(cfg, |cfg.domain|, s);
    assert Seeds(cfg)[..|cfg.domain|] == Seeds(cfg);
  }

  /** No path is recorded twice. */
  lemma SearchNoRepeats(cfg: Config, i: nat, j: nat)
    requires |cfg.domain| > 0 ==> |cfg.nodes| > 0
    requires i < j < |SearchTally(cfg).solutions|
    ensures SearchTally(cfg).solutions[i] != SearchTally(cfg).solutions[j]
  {
    var sols := SearchTally(cfg).solutions;
    SearchAtMostOnce(cfg, sols[i]);
    if sols[i] == sols[j] {
      CountRepeated(sols, i, j);
    }
  }
}

=== FILE: dfs.dfy ===
/**
  The search loop itself: an explicit LIFO stack of paths, popped until it
  is empty. It is proved to follow the reference semantics of `Search`,
  and through it to find exactly the solutions of the brute-force
  reference; its counters satisfy the program's identity and its number of
  pops is bounded by the size of the full tree.
 */
module DepthFirst {
  import opened Layout
  import opened Consistency
  import opened Search
  import opened Correctness
  import opened BruteForce

  /**
    Runs the search. Returns the solutions in the order found, the combined
    counter of discarded and expanded paths, and the number of paths popped.
   */
  method DfsWithPruning(cfg: Config) returns (solutions: seq<Path>, failedBranches: nat, totalBranches: nat)
    requires |cfg.domain| > 0 ==> |cfg.nodes| > 0
    ensures Tally(solutions, failedBranches) == SearchTally(cfg)
    ensures totalBranches == |solutions| + failedBranches
    ensures totalBranches <= TreeNodes(|cfg.nodes|, |cfg.domain|)
    ensures forall s :: s in solutions ==> IsSolution(cfg, s)
    ensures DistinctNames(cfg) && |cfg.nodes| > 0 ==> multiset(solutions) == multiset(BruteForceSolutions(cfg))
    ensures forall i, j :: 0 <= i < j < |solutions| ==> solutions[i] != solutions[j]
  {
    var frontier := InitialFrontier(cfg);
    SeedsWeight(cfg);
    solutions, failedBranches, totalBranches := Explore(cfg, frontier);
    forall s | s in solutions ensures IsSolution(cfg, s) {
      SearchSound(cfg, s);
    }
    forall i, j | 0 <= i < j < |solutions| ensures solutions[i] != solutions[j] {
      SearchNoRepeats(cfg, i, j);
    }
    if DistinctNames(cfg) && |cfg.nodes| > 0 {
      SearchIsBruteForce(cfg);
    }
  }

  /**
    The search loop: pops and visits paths until the stack is empty. It
    records what the reference semantics says the stack records, and pops
    no more paths than the stack's weight.
   */
  method Explore(cfg: Config, start: seq<Path>) returns (solutions: seq<Path>, failedBranches: nat, totalBranches: nat)
    requires Frontier(cfg, start)
    ensures Tally(solutions, failedBranches) == PendingTally(cfg, start)
    ensures totalBranches == |solutions| + failedBranches
    ensures totalBranches <= Weight(cfg, start)
  {
    solutions := [];
    failedBranches := 0;
    totalBranches := 0;
    var frontier := start;
    ThenUnit(PendingTally(cfg, frontier));
    while |frontier| > 0
      invariant Frontier(cfg, frontier)
      invariant Then(Tally(solutions, failedBranches), PendingTally(cfg, frontier)) == PendingTally(cfg, start)
      invariant totalBranches == |solutions| + failedBranches
      invariant totalBranches + Weight(cfg, frontier) <= Weight(cfg, start)
      decreases Weight(cfg, frontier)
    {
      frontier, solutions, failedBranches := Visit(cfg, frontier, solutions, failedBranches);
      totalBranches := totalBranches + 1;
    }
    ThenUnit(Tally(solutions, failedBranches));
  }

  /**
    One round of the search loop: pops the top path, then discards it when
    it is inconsistent, records it when it is a consistent complete
    assignment, and otherwise counts it and pushes its children. What the
    run records overall is unchanged, exactly one of the two counts grows
    by one, and the stack's weight drops.
   */
  method Visit(cfg: Config, frontier: seq<Path>, solutions: seq<Path>, failedBranches: nat)
    returns (frontier': seq<Path>, solutions': seq<Path>, failedBranches': nat)
    requires Frontier(cfg, frontier) && |frontier| > 0
    ensures Frontier(cfg, frontier')
    ensures Then(Tally(solutions', failedBranches'), PendingTally(cfg, frontier'))
         == Then(Tally(solutions, failedBranches), PendingTally(cfg, frontier))
    ensures |solutions'| + failedBranches' == |solutions| + failedBranches + 1
    ensures Weight(cfg, frontier') < Weight(cfg, frontier)
    ensures var top, rest := frontier[|frontier| - 1], frontier[..|frontier| - 1];
      ValidPath(cfg, top) &&
      if !ConsistencyCheck(cfg, top) then
        frontier' == rest && solutions' == solutions && failedBranches' == failedBranches + 1
      else if |top| == |cfg.nodes| then
        frontier' == rest && solutions' == solutions + [top] && failedBranches' == failedBranches
      else
        |top| < |cfg.nodes| && frontier' == rest + Expand(cfg, top)
        && solutions' == solutions && failedBranches' == failedBranches + 1
  {
    var path := frontier[|frontier| - 1];
    var rest := frontier[..|frontier| - 1];
    PendingStep(cfg, frontier);
    WeightStep(cfg, frontier);
    ghost var before := Tally(solutions, failedBranches);
    ghost var after := Then(before, SubtreeTally(cfg, path));
    ThenAssociative(before, SubtreeTally(cfg, path), PendingTally(cfg, rest));
    frontier', solutions', failedBranches' := rest, solutions, failedBranches;
    PositionedIsValid(cfg, path);

    if ConsistencyCheck(cfg, path) {
      if |path| == |cfg.nodes| {
        solutions' := solutions' + [path];
        assert Tally(solutions', failedBranches') == after;
      } else {
        failedBranches' := failedBranches' + 1;
        frontier' := PushChildren(cfg, frontier', path);
        ExpandedRecord(cfg, rest, path, before);
      }
    } else {
      failedBranches' := failedBranches' + 1;
      assert Tally(solutions', failedBranches') == after by {
        assert solutions + [] == solutions;
      }
    }
  }

  /** Seeds the frontier with one single-node path per domain value, in domain order. */
  method InitialFrontier(cfg: Config) returns (frontier: seq<Path>)
    requires |cfg.domain| > 0 ==> |cfg.nodes| > 0
    ensures frontier == Seeds(cfg)
  {
    frontier := [];
    var i := 0;
    while i < |cfg.domain|
      invariant 0 <= i <= |cfg.domain|
      invariant frontier == Seeds(cfg)[..i]
    {
      frontier := frontier + [[i]];
      i := i + 1;
    }
  }

  /**
    Pushes the children of `path`: jumps from its last node to the first
    node of the next block, then pushes one copy of `path` per domain value,
    extended by that value's node.
   */
  method PushChildren(cfg: Config, frontier: seq<Path>, path: Path) returns (pushed: seq<Path>)
    requires OnFrontier(cfg, path) && |path| < |cfg.nodes|
    ensures pushed == frontier + Expand(cfg, path)
  {
    var d := |cfg.domain|;
    var closestNeighbor := NearestNeighbor(path[|path| - 1], d);
    ghost var children := Expand(cfg, path);
    pushed := frontier;
    var counter := 0;
    while counter < d
      invariant 0 <= counter <= d
      invariant pushed == frontier + children[..counter]
    {
      assert children[counter] == path + [closestNeighbor + counter];
      assert children[..counter + 1] == children[..counter] + [children[counter]];
      pushed := pushed + [path + [closestNeighbor + counter]];
      counter := counter + 1;
    }
    assert children[..d] == children;
  }

  /**
    After an expansion the run records the same as before it: counting the
    expanded path and then running its children equals running its subtree.
   */
  lemma ExpandedRecord(cfg: Config, rest: seq<Path>, path: Path, before: Tally)
    requires Frontier(cfg, rest)
    requires OnFrontier(cfg, path) && |path| < |cfg.nodes|
    requires ValidPath(cfg, path) && ConsistencyCheck(cfg, path)
    ensures Frontier(cfg, rest + Expand(cfg, path))
    ensures Then(Tally(before.solutions, before.failed + 1), PendingTally(cfg, rest + Expand(cfg, path)))
         == Then(Then(before, SubtreeTally(cfg, path)), PendingTally(cfg, rest))
    ensures Weight(cfg, rest + Expand(cfg, path)) < Weight(cfg, rest) + 1 + TreeNodes(Height(cfg, path), |cfg.domain|)
  {
    var children := ChildrenTally(cfg, path, |cfg.domain|);
    ExpandStep(cfg, rest, path);
    assert Tally(before.solutions, before.failed + 1) == Then(before, Tally([], 1)) by {
      assert before.solutions + [] == before.solutions;
    }
    ThenAssociative(Then(before, Tally([], 1)), children, PendingTally(cfg, rest));
    ThenAssociative(before, Tally([], 1), children);
  }

  /** Expanding a consistent, incomplete path: its children replace it on the stack. */
  lemma ExpandStep(cfg: Config, rest: seq<Path>, path: Path)
    requires Frontier(cfg, rest)
    requires OnFrontier(cfg, path) && |path| < |cfg.nodes|
    requires ValidPath(cfg, path) && ConsistencyCheck(cfg, path)
    ensures Frontier(cfg, rest + Expand(cfg, path))
    ensures PendingTally(cfg, rest + Expand(cfg, path)) == Then(ChildrenTally(cfg, path, |cfg.domain|), PendingTally(cfg, rest))
    ensures Weight(cfg, rest + Expand(cfg, path)) == Weight(cfg, rest) + TreeNodes(|cfg.nodes| - |path|, |cfg.domain|)
    ensures SubtreeTally(cfg, path) == Then(Tally([], 1), ChildrenTally(cfg, path, |cfg.domain|))
  {
    var children := Expand(cfg, path);
    assert children[..|cfg.domain|] == children;
    PendingOfExpand(cfg, path, |cfg.domain|);
    PendingConcat(cfg, rest, children);
    ExpandWeight(cfg, path);
    WeightConcat(cfg, rest, children);
  }
}

=== FILE: examples.dfy ===
/**
  The concrete configuration the program runs on, eight variables named
  `A` to `H` sharing the domain 1 to 4, and the worked examples its
  behaviour is described by.
 */
module Examples {
  import opened Layout
  import opened Consistency
  import opened Search
  import opened BruteForce

  /** The program's own configuration. */
  const Standard: Config := Config(["A", "B", "C", "D", "E", "F", "G", "H"], [1, 2, 3, 4])

  /** The eight variable names are pairwise different. */
  lemma StandardDistinct()
    ensures DistinctNames(Standard)
  {
    forall i, j | 0 <= i < j < |Standard.nodes| ensures Standard.nodes[i] != Standard.nodes[j] {
      assert Standard.nodes[i][0] != Standard.nodes[j][0];
    }
  }

  /** With two variables and two values the catalogue holds the four nodes in variable-major order. */
  lemma SmallCatalogue()
    ensures forall i :: 0 <= i < 4 ==> ValidIndex(Config(["V1", "V2"], [1, 2]), i)
    ensures Decode(Config(["V1", "V2"], [1, 2]), 0) == Node("V1", 1)
    ensures Decode(Config(["V1", "V2"], [1, 2]), 1) == Node("V1", 2)
    ensures Decode(Config(["V1", "V2"], [1, 2]), 2) == Node("V2", 1)
    ensures Decode(Config(["V1", "V2"], [1, 2]), 3) == Node("V2", 2)
  {
    var cfg := Config(["V1", "V2"], [1, 2]);
    DecodeIndex(cfg, 0, 0);
    DecodeIndex(cfg, 0, 1);
    DecodeIndex(cfg, 1, 0);
    DecodeIndex(cfg, 1, 1);
  }

  /**
    With no variables and no values the empty assignment is complete and
    consistent, and the brute-force reference holds it, but the search starts
    from an empty stack and records nothing.
   */
  lemma EmptyConfigMissesEmptyAssignment()
    ensures IsSolution(Config([], []), [])
    ensures BruteForceSolutions(Config([], [])) == [[]]
    ensures SearchTally(Config([], [])).solutions == []
  {
    var cfg := Config([], []);
    ShortPathConsistent(cfg, []);
    assert Assignments(0, 0) == [[]];
    var rest: seq<Path> := [[]][1..];
    assert Filter(cfg, rest) == [];
    assert Filter(cfg, [[]]) == [[]] + Filter(cfg, rest);
    assert Seeds(cfg) == [];
  }

  /** The empty path assigns nothing and passes the check. */
  lemma EmptyPathConsistent()
    ensures ValidPath(Standard, [])
    ensures ConsistencyCheck(Standard, [])
  {
    ShortPathConsistent(Standard, []);
  }

  /**
    Assigning `A` its third value (3) and `G` its fourth (4) fails the
    check: the first rule of the table requires `G` below `A`.
   */
  lemma AboveRuleRejects()
    ensures ValidPath(Standard, [2, 27])
    ensures !ConsistencyCheck(Standard, [2, 27])
  {
    DecodeIndex(Standard, 0, 2);
    DecodeIndex(Standard, 6, 3);
    assert Index(6, 3, 4) == 27;
    var path := [2, 27];
    AssignmentStep(Standard, path);
    AssignmentStep(Standard, path[..1]);
    assert path[..1][..0] == [];
    var m := AssignmentOf(Standard, path);
    assert m == map["A" := 3, "G" := 4];
    ConsistencyMeaning(Standard, path);
    assert Broken(Table[0], m);
  }

  /** On the program's configuration the search finds exactly the brute-force solutions, each once. */
  lemma StandardSearchIsBruteForce()
    ensures multiset(SearchTally(Standard).solutions) == multiset(BruteForceSolutions(Standard))
  {
    StandardDistinct();
    SearchIsBruteForce(Standard);
  }

  /** The configuration of `RepeatedNameRepairs`: variable `A` appears twice. */
  const Repeated: Config := Config(["A", "G", "A"], [1, 2, 3, 4])

  /** The path `[0, 5]` assigns `A = 1` and `G = 2`. */
  lemma RepeatedShortAssignment()
    ensures ValidPath(Repeated, [0, 5])
    ensures AssignmentOf(Repeated, [0, 5]) == map["A" := 1, "G" := 2]
  {
    DecodeIndex(Repeated, 0, 0);
    DecodeIndex(Repeated, 1, 1);
    assert Index(1, 1, 4) == 5;
    var short := [0, 5];
    AssignmentStep(Repeated, short);
    assert short[..1] == [0];
    AssignmentStep(Repeated, [0]);
    assert [0][..0] == [];
  }

  /** The path `[0, 5, 11]` sets `A` again, to 4, after `G = 2`. */
  lemma RepeatedLongAssignment()
    ensures ValidPath(Repeated, [0, 5, 11])
    ensures AssignmentOf(Repeated, [0, 5, 11]) == map["A" := 4, "G" := 2]
  {
    RepeatedShortAssignment();
    DecodeIndex(Repeated, 2, 3);
    assert Index(2, 3, 4) == 11;
    var long := [0, 5, 11];
    AssignmentStep(Repeated, long);
    assert long[..2] == [0, 5];
  }

  /** No constraint of the table is broken by `A = 4, G = 2`. */
  lemma RepairedPasses()
    ensures CheckRules(Table, map["A" := 4, "G" := 2])
  {
    var m := map["A" := 4, "G" := 2];
    forall i | 0 <= i < |Table| ensures !Broken(Table[i], m) {
      RepairedRule(i);
    }
    CheckRulesPasses(Table, m);
  }

  /** Constraint number `i` of the table is not broken by `A = 4, G = 2`. */
  lemma RepairedRule(i: nat)
    requires i < |Table|
    ensures !Broken(Table[i], map["A" := 4, "G" := 2])
  {
  }

  /**
    With a repeated variable name, extending a failing path can make it pass:
    `A = 1, G = 2` breaks the first rule, and a later `A = 4` overwrites the
    value that broke it.
   */
  lemma RepeatedNameRepairs()
    ensures ValidPath(Repeated, [0, 5]) && ValidPath(Repeated, [0, 5, 11])
    ensures !ConsistencyCheck(Repeated, [0, 5])
    ensures ConsistencyCheck(Repeated, [0, 5, 11])
  {
    RepeatedShortAssignment();
    RepeatedLongAssignment();
    ConsistencyMeaning(Repeated, [0, 5]);
    assert Broken(Table[0], map["A" := 1, "G" := 2]);
    RepairedPasses();
  }
}

=== FILE: layout.dfy ===
/**
  The flat layout of the search space.

  Every (variable, value) pair of the problem is one node, and all nodes are
  laid out in one ordered catalogue: the block of variable `v` holds its
  values in domain order, and blocks follow the order of the variables, so
  value number `c` of variable number `v` sits at index `v * d + c`, where
  `d` is the size of the shared domain. The neighbour jump moves from any
  node to the first node of the next variable's block by arithmetic alone.

  The block arithmetic is written with recursive definitions (`BlockStart`,
  `BlockOf`, `OffsetOf`) that are proved equal to `v * d`, `i / d` and
  `i % d`; the rest of the model reasons about blocks through them.
 */
module Layout {

  /** A variable of the problem, identified by its name. */
  type Var = string

  /** The configuration of one run: the ordered variables and the ordered domain they share. */
  datatype Config = Config(nodes: seq<Var>, domain: seq<int>)

  /** One entry of the search-space catalogue: a variable paired with one domain value. */
  datatype Node = Node(variable: Var, value: int)

  /** No two variables share a name. */
  predicate DistinctNames(cfg: Config) {
    forall i, j :: 0 <= i < j < |cfg.nodes| ==> cfg.nodes[i] != cfg.nodes[j]
  }

  // ---------------------------------------------------------------------
  // Block arithmetic
  // ---------------------------------------------------------------------

  /** The index of the first node of the block of variable number `v`. */
  function BlockStart(v: nat, d: nat): nat {
    if v == 0 then 0 else BlockStart(v - 1, d) + d
  }

  /** The number of the block that index `i` lies in. */
  function BlockOf(i: nat, d: nat): nat
    requires d > 0
  {
    if i < d then 0 else BlockOf(i - d, d) + 1
  }

  /** The position of index `i` inside its block. */
  function OffsetOf(i: nat, d: nat): nat
    requires d > 0
  {
    if i < d then i else OffsetOf(i - d, d)
  }

  /** The flat index of value number `c` of variable number `v`. */
  function Index(v: nat, c: nat, d: nat): nat {
    BlockStart(v, d) + c
  }

  /** `idx` names a node of the catalogue of `cfg`. */
  predicate ValidIndex(cfg: Config, idx: int) {
    0 <= idx < BlockStart(|cfg.nodes|, |cfg.domain|)
  }

  /** `i` lies in the block of variable number `k`. */
  predicate InBlock(i: int, k: nat, d: nat) {
    BlockStart(k, d) <= i < BlockStart(k, d) + d
  }

  /** Every node of `p` lies in the block of the variable at its own position. */
  predicate InBlocks(p: seq<int>, d: nat) {
    forall k :: 0 <= k < |p| ==> InBlock(p[k], k, d)
  }

  /** The recursive block start is the product of the program's layout formula. */
  lemma {:induction false} BlockStartIsProduct(v: nat, d: nat)
    ensures BlockStart(v, d) == v * d
  {
    if v > 0 {
      BlockStartIsProduct(v - 1, d);
      assert v * d == (v - 1) * d + d;
    }
  }

  /** Later blocks start after the whole of earlier blocks. */
  lemma {:induction false} BlockStartMonotone(v: nat, w: nat, d: nat)
    ensures v < w ==> BlockStart(v, d) + d <= BlockStart(w, d)
    decreases w
  {
    if v < w - 1 {
      BlockStartMonotone(v, w - 1, d);
    }
  }

  /** An index inside block `k` has block number `k` and sits at its distance from the block start. */
  lemma {:induction false} DecodeBlock(i: nat, k: nat, d: nat)
    requires d > 0
    requires InBlock(i, k, d)
    ensures BlockOf(i, d) == k
    ensures OffsetOf(i, d) == i - BlockStart(k, d)
    decreases k
  {
    if k > 0 {
      DecodeBlock(i - d, k - 1, d);
    }
  }

  /** Every index lies in the block its block number names. */
  lemma {:induction false} InOwnBlock(i: nat, d: nat)
    requires d > 0
    ensures InBlock(i, BlockOf(i, d), d)
    ensures OffsetOf(i, d) == i - BlockStart(BlockOf(i, d), d)
    decreases i
  {
    if i >= d {
      InOwnBlock(i - d, d);
    }
  }

  /** Block number and offset are the quotient and remainder of the program's decode. */
  lemma BlockOfIsDivision(i: nat, d: nat)
    requires d > 0
    ensures BlockOf(i, d) == i / d
    ensures OffsetOf(i, d) == i % d
  {
    InOwnBlock(i, d);
    BlockStartIsProduct(BlockOf(i, d), d);
    DivUnique(i, d, BlockOf(i, d), OffsetOf(i, d));
  }

  /** Quotient and remainder are the only pair that rebuilds `i` with a remainder below `d`. */
  lemma DivUnique(i: int, d: int, k: int, r: int)
    requires d > 0 && 0 <= r < d
    requires i == k * d + r
    ensures i / d == k && i % d == r
  {
    var q := i / d;
    assert i == q * d + i % d;
    assert (k + 1) * d == k * d + d;
    assert (q + 1) * d == q * d + d;
    if q > k {
      MulMonotone(q, k + 1, d);
      assert false;
    } else if q < k {
      MulMonotone(k, q + 1, d);
      assert false;
    }
  }

  /** Multiplying by a non-negative factor keeps the order. */
  lemma MulMonotone(a: int, b: int, d: int)
    requires a >= b && d >= 0
    ensures a * d >= b * d
  {
    assert a * d - b * d == (a - b) * d;
  }

  /** The index of value `c` of variable `v` lies in the catalogue and decodes back to `(v, c)`. */
  lemma IndexInRange(v: nat, c: nat, n: nat, d: nat)
    requires v < n && c < d
    ensures Index(v, c, d) < BlockStart(n, d)
    ensures BlockOf(Index(v, c, d), d) == v && OffsetOf(Index(v, c, d), d) == c
  {
    BlockStartMonotone(v, n, d);
    DecodeBlock(Index(v, c, d), v, d);
  }

  /** A node in block `k < n` is an index of a catalogue of `n` blocks. */
  lemma BlockInRange(i: int, k: nat, n: nat, d: nat)
    requires k < n
    requires InBlock(i, k, d)
    ensures 0 <= i < BlockStart(n, d)
  {
    BlockStartMonotone(k, n, d);
  }

  /** A catalogue index belongs to one of the `n` variable blocks. */
  lemma VariableInRange(idx: nat, n: nat, d: nat)
    requires idx < BlockStart(n, d)
    ensures d > 0
    ensures BlockOf(idx, d) < n
  {
    if d == 0 {
      ZeroBlocks(n);
      assert false;
    }
    InOwnBlock(idx, d);
    BlockStartMonotone(n, BlockOf(idx, d), d);
  }

  /** With an empty domain every block is empty. */
  lemma {:induction false} ZeroBlocks(n: nat)
    ensures BlockStart(n, 0) == 0
  {
    if n > 0 {
      ZeroBlocks(n - 1);
    }
  }

  // ---------------------------------------------------------------------
  // Operations
  // ---------------------------------------------------------------------

  /** The node that a catalogue index stands for: its variable and its domain value. */
  function Decode(cfg: Config, idx: int): (node: Node)
    requires ValidIndex(cfg, idx)
    ensures node.variable in cfg.nodes && node.value in cfg.domain
  {
    VariableInRange(idx, |cfg.nodes|, |cfg.domain|);
    InOwnBlock(idx, |cfg.domain|);
    Node(cfg.nodes[BlockOf(idx, |cfg.domain|)], cfg.domain[OffsetOf(idx, |cfg.domain|)])
  }

  /** Decoding the index of value `c` of variable `v` gives back that variable and that value. */
  lemma DecodeIndex(cfg: Config, v: nat, c: nat)
    requires v < |cfg.nodes| && c < |cfg.domain|
    ensures ValidIndex(cfg, Index(v, c, |cfg.domain|))
    ensures Decode(cfg, Index(v, c, |cfg.domain|)) == Node(cfg.nodes[v], cfg.domain[c])
  {
    IndexInRange(v, c, |cfg.nodes|, |cfg.domain|);
  }

  /** Every catalogue index is the index of the node it decodes to. */
  lemma IndexOfDecode(cfg: Config, idx: nat)
    requires ValidIndex(cfg, idx)
    ensures |cfg.domain| > 0
    ensures Index(BlockOf(idx, |cfg.domain|), OffsetOf(idx, |cfg.domain|), |cfg.domain|) == idx
  {
    VariableInRange(idx, |cfg.nodes|, |cfg.domain|);
    InOwnBlock(idx, |cfg.domain|);
  }

  /**
    Builds the catalogue of all nodes, variable by variable and, inside each
    variable, value by value.
   */
  method CreateSearchSpace(nodes: seq<Var>, domain: seq<int>) returns (key: seq<Node>)
    ensures |key| == |nodes| * |domain|
    ensures forall v, c :: 0 <= v < |nodes| && 0 <= c < |domain| ==>
              Index(v, c, |domain|) < |key| && key[Index(v, c, |domain|)] == Node(nodes[v], domain[c])
    ensures forall i :: 0 <= i < |key| ==> ValidIndex(Config(nodes, domain), i) && key[i] == Decode(Config(nodes, domain), i)
  {
    var cfg := Config(nodes, domain);
    var d := |domain|;
    key := [];
    var v := 0;
    while v < |nodes|
      invariant 0 <= v <= |nodes|
      invariant |key| == BlockStart(v, d)
      invariant forall i :: 0 <= i < |key| ==> ValidIndex(cfg, i) && key[i] == Decode(cfg, i)
    {
      var c := 0;
      while c < d
        invariant 0 <= c <= d
        invariant |key| == Index(v, c, d)
        invariant forall i :: 0 <= i < |key| ==> ValidIndex(cfg, i) && key[i] == Decode(cfg, i)
      {
        DecodeIndex(cfg, v, c);
        key := key + [Node(nodes[v], domain[c])];
        c := c + 1;
      }
      v := v + 1;
    }
    BlockStartIsProduct(|nodes|, d);
    forall v, c | 0 <= v < |nodes| && 0 <= c < |domain|
      ensures Index(v, c, d) < |key| && key[Index(v, c, d)] == Node(nodes[v], domain[c])
    {
      DecodeIndex(cfg, v, c);
    }
  }

  /**
    The index of the first node of the block that follows the block of
    `index`, computed as `domainSize - index % domainSize + index`. The
    remainder is the non-negative one, as Python's `%` gives for a
    positive divisor.
   */
  function NearestNeighbor(index: int, domainSize: int): (r: int)
    requires domainSize > 0
    ensures r == (index / domainSize + 1) * domainSize
    ensures index < r <= index + domainSize
  {
    NextMultiple(index, domainSize);
    domainSize - index % domainSize + index
  }

  /** The arithmetic behind the neighbour jump: it lands on the next multiple of the domain size. */
  lemma NextMultiple(index: int, d: int)
    requires d > 0
    ensures d - index % d + index == (index / d + 1) * d
  {
    var q := index / d;
    assert index == q * d + index % d;
    assert (q + 1) * d == q * d + d;
  }

  /** From any node of block `k`, the neighbour jump lands on the first node of block `k + 1`. */
  lemma NeighborOfBlock(i: int, k: nat, d: nat)
    requires d > 0
    requires InBlock(i, k, d)
    ensures NearestNeighbor(i, d) == BlockStart(k + 1, d)
  {
    DecodeBlock(i, k, d);
    BlockOfIsDivision(i, d);
    BlockStartIsProduct(k + 1, d);
  }
}

=== FILE: search.dfy ===
/**
  Depth-first search with pruning over the implicit search tree.

  The frontier is a LIFO stack of paths, seeded with one single-node path
  per value of the first variable. Each popped path is either discarded
  because it fails the consistency check, recorded as a solution because it
  is consistent and assigns every variable, or expanded: one child per
  domain value is pushed, each the path with one node of the next
  variable's block appended, found by the neighbour jump. One counter of
  "failed" branches counts both discarded and expanded paths.

  `SubtreeTally` and `PendingTally` are the reference semantics: what the
  search records below one path, and below a whole stack, in pop order.
 */
module Search {
  import opened Layout
  import opened Consistency

  type Path = seq<int>

  /** A path that can sit on the frontier: at least one node, each in the block of its position. */
  predicate OnFrontier(cfg: Config, p: Path) {
    1 <= |p| && Positioned(cfg, p)
  }

  /** Every path of the stack can sit on the frontier. */
  predicate Frontier(cfg: Config, stack: seq<Path>) {
    forall i :: 0 <= i < |stack| ==> OnFrontier(cfg, stack[i])
  }

  /** A complete assignment of the variables that passes the consistency check. */
  predicate IsSolution(cfg: Config, s: Path) {
    |s| == |cfg.nodes| && InBlocks(s, |cfg.domain|) && ValidPath(cfg, s) && ConsistencyCheck(cfg, s)
  }

  /** What a run records: the solutions in the order found, and the combined failure counter. */
  datatype Tally = Tally(solutions: seq<Path>, failed: nat)

  /** The record of one part of the run followed by the record of the next part. */
  function Then(a: Tally, b: Tally): Tally {
    Tally(a.solutions + b.solutions, a.failed + b.failed)
  }

  /** The initial frontier: one single-node path per value of the first variable. */
  function Seeds(cfg: Config): (seeds: seq<Path>)
    requires |cfg.domain| > 0 ==> |cfg.nodes| > 0
    ensures |seeds| == |cfg.domain|
    ensures forall i :: 0 <= i < |seeds| ==> seeds[i] == [Index(0, i, |cfg.domain|)]
    ensures Frontier(cfg, seeds)
  {
    seq(|cfg.domain|, i => [i])
  }

  /** Child `c` of `p`: `p` with node `c` of the next variable's block appended. */
  function Child(cfg: Config, p: Path, c: nat): Path {
    p + [Index(|p|, c, |cfg.domain|)]
  }

  /** Every child of a path on the frontier that is not yet complete can sit on the frontier. */
  lemma ChildOnFrontier(cfg: Config, p: Path, c: nat)
    requires OnFrontier(cfg, p) && |p| < |cfg.nodes|
    requires c < |cfg.domain|
    ensures OnFrontier(cfg, Child(cfg, p, c))
  {
    var child := Child(cfg, p, c);
    forall k | 0 <= k < |child| ensures InBlock(child[k], k, |cfg.domain|) {
      if k < |p| {
        assert child[k] == p[k];
      }
    }
  }

  /**
    The children pushed when `p` is expanded, in push order: one per domain
    value, reached by the neighbour jump from the last node of `p`, which
    lands on the first node of the next variable's block.
   */
  function Expand(cfg: Config, p: Path): (children: seq<Path>)
    requires OnFrontier(cfg, p) && |p| < |cfg.nodes|
    ensures |children| == |cfg.domain|
    ensures forall c :: 0 <= c < |children| ==> children[c] == Child(cfg, p, c)
    ensures forall c :: 0 <= c < |children| ==> OnFrontier(cfg, children[c])
  {
    var d := |cfg.domain|;
    var last := |p| - 1;
    NeighborOfBlock(p[last], last, d);
    var next := NearestNeighbor(p[last], d);
    var children := seq(d, c requires 0 <= c < d => p + [next + c]);
    forall c | 0 <= c < d ensures OnFrontier(cfg, children[c]) {
      ChildOnFrontier(cfg, p, c);
    }
    children
  }

  // ---------------------------------------------------------------------
  // Reference semantics of the search
  // ---------------------------------------------------------------------

  /** What the search records from popping `p` until everything pushed below it has been popped. */
  function SubtreeTally(cfg: Config, p: Path): Tally
    requires OnFrontier(cfg, p)
    decreases |cfg.nodes| - |p|, |cfg.domain| + 1
  {
    PositionedIsValid(cfg, p);
    if !ConsistencyCheck(cfg, p) then
      Tally([], 1)
    else if |p| == |cfg.nodes| then
      Tally([p], 0)
    else
      Then(Tally([], 1), ChildrenTally(cfg, p, |cfg.domain|))
  }

  /** What the search records below the first `k` children of `p`, popped last-pushed first. */
  function ChildrenTally(cfg: Config, p: Path, k: nat): Tally
    requires OnFrontier(cfg, p) && |p| < |cfg.nodes|
    requires k <= |cfg.domain|
    decreases |cfg.nodes| - |p|, k
  {
    if k == 0 then
      Tally([], 0)
    else
      ChildOnFrontier(cfg, p, k - 1);
      Then(SubtreeTally(cfg, Child(cfg, p, k - 1)), ChildrenTally(cfg, p, k - 1))
  }

  /** What the search records from a whole stack, top (last element) first. */
  function PendingTally(cfg: Config, stack: seq<Path>): Tally
    requires Frontier(cfg, stack)
    decreases |stack|
  {
    if |stack| == 0 then
      Tally([], 0)
    else
      Then(SubtreeTally(cfg, stack[|stack| - 1]), PendingTally(cfg, stack[..|stack| - 1]))
  }

  /** What a whole run records. */
  function SearchTally(cfg: Config): Tally
    requires |cfg.domain| > 0 ==> |cfg.nodes| > 0
  {
    PendingTally(cfg, Seeds(cfg))
  }

  // ---------------------------------------------------------------------
  // Stack bookkeeping
  // ---------------------------------------------------------------------

  /** Any part of a frontier is a frontier. */
  lemma FrontierSlice(cfg: Config, stack: seq<Path>, i: nat, j: nat)
    requires Frontier(cfg, stack)
    requires i <= j <= |stack|
    ensures Frontier(cfg, stack[i..j])
  {
    forall k | 0 <= k < j - i ensures OnFrontier(cfg, stack[i..j][k]) {
      assert stack[i..j][k] == stack[i + k];
    }
  }

  /** Two frontiers, one pushed on the other, form a frontier. */
  lemma FrontierConcat(cfg: Config, stack: seq<Path>, top: seq<Path>)
    requires Frontier(cfg, stack) && Frontier(cfg, top)
    ensures Frontier(cfg, stack + top)
  {
    var all := stack + top;
    forall i | 0 <= i < |all| ensures OnFrontier(cfg, all[i]) {
      if i >= |stack| {
        assert all[i] == top[i - |stack|];
      }
    }
  }

  /** Popping the top of a stack: its subtree is run first, then the rest. */
  lemma PendingStep(cfg: Config, stack: seq<Path>)
    requires Frontier(cfg, stack) && |stack| > 0
    ensures Frontier(cfg, stack[..|stack| - 1])
    ensures PendingTally(cfg, stack) == Then(SubtreeTally(cfg, stack[|stack| - 1]), PendingTally(cfg, stack[..|stack| - 1]))
  {
  }

  /** Pushing `top` onto `stack` records the run of `top` before the run of `stack`. */
  lemma {:induction false} PendingConcat(cfg: Config, stack: seq<Path>, top: seq<Path>)
    requires Frontier(cfg, stack) && Frontier(cfg, top)
    ensures Frontier(cfg, stack + top)
    ensures PendingTally(cfg, stack + top) == Then(PendingTally(cfg, top), PendingTally(cfg, stack))
    decreases |top|
  {
    FrontierConcat(cfg, stack, top);
    var all := stack + top;
    if |top| == 0 {
      assert all == stack;
      assert PendingTally(cfg, top) == Tally([], 0);
    } else {
      var init := top[..|top| - 1];
      var t := top[|top| - 1];
      assert all[..|all| - 1] == stack + init;
      assert all[|all| - 1] == t;
      PendingStep(cfg, top);
      PendingConcat(cfg, stack, init);
      PendingStep(cfg, all);
      ThenAssociative(SubtreeTally(cfg, t), PendingTally(cfg, init), PendingTally(cfg, stack));
    }
  }

  /** The empty record is a unit for `Then`. */
  lemma ThenUnit(a: Tally)
    ensures Then(Tally([], 0), a) == a && Then(a, Tally([], 0)) == a
  {
    assert [] + a.solutions == a.solutions;
    assert a.solutions + [] == a.solutions;
  }

  lemma ThenAssociative(a: Tally, b: Tally, c: Tally)
    ensures Then(Then(a, b), c) == Then(a, Then(b, c))
  {
    assert (a.solutions + b.solutions) + c.solutions == a.solutions + (b.solutions + c.solutions);
  }

  /** The first `k` children of `p`, as a stack, record what `ChildrenTally` says. */
  lemma {:induction false} PendingOfExpand(cfg: Config, p: Path, k: nat)
    requires OnFrontier(cfg, p) && |p| < |cfg.nodes|
    requires k <= |cfg.domain|
    ensures Frontier(cfg, Expand(cfg, p)[..k])
    ensures PendingTally(cfg, Expand(cfg, p)[..k]) == ChildrenTally(cfg, p, k)
  {
    var children := Expand(cfg, p);
    assert Frontier(cfg, children[..k]) by {
      forall i | 0 <= i < k ensures OnFrontier(cfg, children[..k][i]) {
        assert children[..k][i] == children[i];
      }
    }
    if k > 0 {
      assert children[..k][..k - 1] == children[..k - 1];
      PendingOfExpand(cfg, p, k - 1);
    }
  }

  // ---------------------------------------------------------------------
  // Termination measure
  // ---------------------------------------------------------------------

  /** `k` copies of `x` added up. */
  function Copies(k: nat, x: nat): nat {
    if k == 0 then 0 else Copies(k - 1, x) + x
  }

  /** The number of nodes at depths 1 to `h` of a full tree with `d` children per node. */
  function TreeNodes(h: nat, d: nat): nat {
    if h == 0 then 0 else Copies(d, 1 + TreeNodes(h - 1, d))
  }

  /** A full tree of depth `h + 1` is `d` subtrees of depth `h` under their roots. */
  lemma {:induction false} TreeNodesProduct(h: nat, d: nat)
    ensures TreeNodes(h + 1, d) == d * (1 + TreeNodes(h, d))
  {
    CopiesIsProduct(d, 1 + TreeNodes(h, d));
  }

  lemma {:induction false} CopiesIsProduct(k: nat, x: nat)
    ensures Copies(k, x) == k * x
  {
    if k > 0 {
      CopiesIsProduct(k - 1, x);
      assert k * x == (k - 1) * x + x;
    }
  }

  /** The number of variables a path has still to assign. */
  function Height(cfg: Config, p: Path): nat {
    if |p| <= |cfg.nodes| then |cfg.nodes| - |p| else 0
  }

  /** The most pops a stack can still cause: every path's full subtree. */
  function Weight(cfg: Config, stack: seq<Path>): nat
    decreases |stack|
  {
    if |stack| == 0 then
      0
    else
      Weight(cfg, stack[..|stack| - 1]) + 1 + TreeNodes(Height(cfg, stack[|stack| - 1]), |cfg.domain|)
  }

  /** Popping the top of a stack removes the weight of its full subtree. */
  lemma WeightStep(cfg: Config, stack: seq<Path>)
    requires |stack| > 0
    ensures Weight(cfg, stack) == Weight(cfg, stack[..|stack| - 1]) + 1 + TreeNodes(Height(cfg, stack[|stack| - 1]), |cfg.domain|)
  {
  }

  /** The weight of a stack is additive. */
  lemma {:induction false} WeightConcat(cfg: Config, stack: seq<Path>, top: seq<Path>)
    ensures Weight(cfg, stack + top) == Weight(cfg, stack) + Weight(cfg, top)
    decreases |top|
  {
    var all := stack + top;
    if |top| == 0 {
      assert all == stack;
    } else {
      var init := top[..|top| - 1];
      assert all[..|all| - 1] == stack + init;
      assert all[|all| - 1] == top[|top| - 1];
      WeightStep(cfg, top);
      WeightConcat(cfg, stack, init);
      WeightStep(cfg, all);
    }
  }

  /** `k` paths of the same length weigh `k` times one of them. */
  lemma {:induction false} WeightOfSameLength(cfg: Config, stack: seq<Path>, len: nat)
    requires len <= |cfg.nodes|
    requires forall i :: 0 <= i < |stack| ==> |stack[i]| == len
    ensures Weight(cfg, stack) == Copies(|stack|, 1 + TreeNodes(|cfg.nodes| - len, |cfg.domain|))
    decreases |stack|
  {
    if |stack| > 0 {
      var init := stack[..|stack| - 1];
      WeightStep(cfg, stack);
      forall i | 0 <= i < |init| ensures |init[i]| == len {
        assert init[i] == stack[i];
      }
      WeightOfSameLength(cfg, init, len);
    }
  }

  /** Expanding a path replaces its weight by one less: the weight of its children. */
  lemma ExpandWeight(cfg: Config, p: Path)
    requires OnFrontier(cfg, p) && |p| < |cfg.nodes|
    ensures Weight(cfg, Expand(cfg, p)) == TreeNodes(|cfg.nodes| - |p|, |cfg.domain|)
  {
    var children := Expand(cfg, p);
    forall i | 0 <= i < |children| ensures |children[i]| == |p| + 1 {
      assert children[i] == Child(cfg, p, i);
    }
    SiblingsWeight(cfg, children, |p|);
  }

  /** `d` paths one node longer than `len` weigh as much as the full tree of height `n - len`. */
  lemma SiblingsWeight(cfg: Config, stack: seq<Path>, len: nat)
    requires len < |cfg.nodes|
    requires |stack| == |cfg.domain|
    requires forall i :: 0 <= i < |stack| ==> |stack[i]| == len + 1
    ensures Weight(cfg, stack) == TreeNodes(|cfg.nodes| - len, |cfg.domain|)
  {
    var h := |cfg.nodes| - (len + 1);
    WeightOfSameLength(cfg, stack, len + 1);
    assert TreeNodes(h + 1, |cfg.domain|) == Copies(|cfg.domain|, 1 + TreeNodes(h, |cfg.domain|));
    assert |cfg.nodes| - len == h + 1;
  }

  /** The first frontier weighs exactly as much as the full tree below the root. */
  lemma SeedsWeight(cfg: Config)
    requires |cfg.domain| > 0 ==> |cfg.nodes| > 0
    ensures Weight(cfg, Seeds(cfg)) == TreeNodes(|cfg.nodes|, |cfg.domain|)
  {
    var seeds := Seeds(cfg);
    if |cfg.domain| == 0 {
      assert seeds == [];
      ZeroTree(|cfg.nodes|);
    } else {
      WeightOfSameLength(cfg, seeds, 1);
    }
  }

  /** With no values there is no tree below the root. */
  lemma {:induction false} ZeroTree(h: nat)
    ensures TreeNodes(h, 0) == 0
  {
  }
}
